=== FILE: README.md ===
# Notion database sync: record decoder and paging loop

This project models the core of `notion_sync.py`, the module a personal-finance dashboard
uses to pull expense records from a Notion database. Two parts are modelled, both as pure
Dafny functions:

- `NotionSyncDB.process_db_data`, the per-row decoder. Each row property is a tagged value
  (`number`, `title`, `formula`, ...). The decoder walks the database schema's property names
  in order and builds a flat dict from name to scalar. Each known tag has a fixed rule. A
  property whose decoding raises (missing key, unknown tag, null select, null date formula)
  is dropped by the `except` and the loop carries on.
- The result-accumulation and cursor loop of `NotionSyncDB.query_database`. The HTTP
  exchange is replaced by the sequence of response pages the server returns. The output is
  the in-order concatenation of the decoded rows, fetched until the first page whose
  `has_more` is false.

Modules, one per concept:

- `Wrappers` (`wrappers.dfy`): the `Option` type.
- `Text` (`text.dfy`): `" ".join`, `str.split(" ")`, decimal rendering of a non-negative
  integer, and the `"<prefix>-<number>"` unique-id label. Each has its inverse and a
  round-trip lemma.
- `Properties` (`properties.dfy`): the property-value datatypes and `Classify`, the if/elif
  chain for one property.
- `Records` (`records.dfy`): the returned dict, as an insertion-ordered list of fields with
  Python's `d[k] = v` semantics. Python dicts keep insertion order, so key order is part of
  the result.
- `Decoder` (`decoder.dfy`): the fold over the schema, plus a per-index reference definition
  (`Entry`, `Expected`) and the lemmas connecting the two.
- `Query` (`query.dfy`): the paging loop, written as a method with loop invariants.

A faithfulness point: `temp_data` is a local variable that survives from one loop pass to
the next. A `formula` whose subtype is not number, string or date assigns nothing. Line 83
then stores whatever the latest earlier successful pass assigned. If no earlier pass
assigned anything, the name is unbound, and the resulting `NameError` is caught, so the
property is dropped. The fold carries `temp_data` as an `Option` (`Decoder.State.temp`), and
`Decoder.DecodeStaleFormula` states exactly which value is stored.

Schema names are the keys of a dict, so they are distinct. The lemmas that need this take
`Distinct(schema)` as a precondition. The decoder itself accepts any schema.

## Model

| member | source | states |
|---|---|---|
| `Records.Put` | notion_sync.py:83 | Storing `res_data[prop]`: the key then maps to the new value and every other key keeps its value. An existing key keeps its position, and a new key is appended at the end. |
| `Records.PutKeepsDistinct` | notion_sync.py:83 | Storing never duplicates a key. |
| `Text.Join` | notion_sync.py:66 | `" ".join` of a non-empty list is as long as the parts together plus one separator between each pair of neighbours. |
| `Text.Split` | notion_sync.py:66 | The inverse used for the join: a string with k spaces splits into k + 1 space-free pieces. |
| `Text.JoinSplit` | notion_sync.py:66 | Joining the pieces of a split gives back the original string. |
| `Text.SplitJoin` | notion_sync.py:66 | Splitting the join of a non-empty list of space-free texts gives back exactly that list. |
| `Text.NatToString` | notion_sync.py:78 | The f-string rendering of the unique-id number is non-empty and all digits, and 0 renders as exactly `"0"`, so no rendering has a leading zero. |
| `Text.ParseNatToString` | notion_sync.py:78 | The rendered number reads back as the same number. |
| `Text.FormatId` | notion_sync.py:78 | The f-string `f"{prefix}-{number}"` is the prefix, then one `-`, then at least one digit and nothing but digits. |
| `Text.ParseFormatId` | notion_sync.py:78 | The label `"<prefix>-<number>"` determines both the prefix and the number, even when the prefix itself contains dashes. |
| `Properties.Classify` | notion_sync.py:63-82 | The if/elif chain raises exactly for an unknown tag, a null select and a null date formula. It reaches the store without assigning `temp_data` exactly for a formula of another subtype. Every other property assigns a value. |
| `Decoder.Visit` | notion_sync.py:60-85 | One `try` pass, decided per case. A missing key or a raising branch leaves the state unchanged. An assigning branch sets `temp_data` to its value and stores it under the key. A formula of another subtype leaves `temp_data` as it was: it stores that value when bound, and changes nothing when unbound. No other key is touched. |
| `Decoder.Run` | notion_sync.py:59-85 | After the first n loop passes, every stored key is one of the first n schema names. |
| `Decoder.Decode` | notion_sync.py:55-86 | The decoded record never holds a key outside the schema. |
| `Decoder.RunMatchesExpected` | notion_sync.py:59-85 | After every pass, the fold's `temp_data` is the value of the latest assigning pass, and its dict is the per-index reference record. |
| `Decoder.DecodeMatchesExpected` | notion_sync.py:55-86 | The whole decoded record equals the reference definition: the fields of the schema positions that store something, in schema order. |
| `Decoder.DecodeLookup` | notion_sync.py:59-85 | Under each schema name, the record holds exactly what that name's pass stores, or nothing if the pass raised. |
| `Decoder.DecodePassThrough` | notion_sync.py:63-64 | `number`, `created_time` and `last_edited_time` are stored with their payload unchanged. A null number stays null. |
| `Decoder.DecodeText` | notion_sync.py:65-66 | `rich_text` and `title` are stored as the fragments' plain texts joined by single spaces. An empty list gives `""`. When the texts contain no spaces, splitting the stored text gives them back. |
| `Decoder.DecodeSelect` | notion_sync.py:67-68 | A `select` is stored as its option's name. A null select is dropped. |
| `Decoder.DecodeFormula` | notion_sync.py:69-74 | A number or string formula is stored as its value, and a date formula as its `start`. A null date is dropped. |
| `Decoder.TempBeforeIsLatest` | notion_sync.py:59-83 | `temp_data` at the start of a pass is unbound exactly when no earlier pass assigned it. Otherwise it holds the value of the latest assigning pass. |
| `Decoder.DecodeStaleFormula` | notion_sync.py:69-83 | A formula of any other subtype is stored with the value of the latest earlier assigning property. It is dropped when there is none. |
| `Decoder.DecodeUniqueId` | notion_sync.py:75-80 | A `unique_id` is stored as the bare number when there is no `prefix` key. With a prefix key it is stored as exactly `"<prefix>-<number>"`, where `PrefixText` prints a null prefix as `None`. That label parses back to the prefix and number. |
| `Decoder.DecodeDropsFailures` | notion_sync.py:60-85 | A schema property missing from the row, or of an unknown type, is absent from the record. So is every name outside the schema. |
| `Decoder.DecodeReadsOnlySchema` | notion_sync.py:56-61 | Rows that agree on the schema's properties decode to the same record. Properties outside the schema have no effect. |
| `Decoder.DecodeRaiseAsAbsent` | notion_sync.py:60-85 | A property whose pass raises leaves the whole record exactly as if it were absent from the row. The exception stops nothing but its own pass, and decoding of the other properties continues. |
| `Decoder.DecodeInSchemaOrder` | notion_sync.py:56-83 | The record's keys are distinct and form a subsequence of the schema, so they appear in schema order. |
| `Decoder.DecodeKeys` | notion_sync.py:59-85 | A schema name is a key of the record exactly when its pass stores something. Together with `DecodeInSchemaOrder`, the keys are the schema names in order with the failed ones left out. |
| `Query.FirstRequest` | notion_sync.py:29-38 | The first request body carries `sorts` and no `start_cursor`. It carries `filter`, unchanged, exactly when the filter is non-empty. |
| `Query.DecodeRows` | notion_sync.py:45 | The list comprehension gives one decoded record per row, in row order. |
| `Query.Consumed` | notion_sync.py:44-50 | The loop reads pages up to and including the first page whose `has_more` is false. Every earlier page has `has_more` true. If no page says stop, it reads them all. |
| `Query.QueryDatabase` | notion_sync.py:37-53 | Requests go out exactly while `has_more` is true. Every request carries the same `sorts`, and carries `filter` only when the filter is non-empty. The first request has no `start_cursor`, and each follow-up carries the previous page's `next_cursor`. The output is the concatenation of the decoded rows of the pages read, and the method reports whether a page with `has_more` false was reached. |
| `Query.GatherLength` | notion_sync.py:45-52 | Every fetched row yields exactly one record. |
| `Query.GatherLocate` | notion_sync.py:45-52 | Row j of page p lands in the output right after the rows of all earlier pages: the output is the in-order concatenation of the decoded results. |

## Left out

- HTTP and authentication are not modelled: `get_database_properties`, the request headers, `requests.get`/`post` and the URLs (notion_sync.py:15-25, 28-36, 40). The schema and the response pages are inputs.
- Status-code checks are not modelled (notion_sync.py:41-42). Only the first response is checked in the source, and follow-up pages never are (notion_sync.py:49-50).
- `Query.QueryDatabase` needs a finite list of pages. If every given page says `has_more`, the model stops with the final request unanswered. The program would instead keep requesting.
- `row['properties']` sits outside the `try` (notion_sync.py:58), so a row without it aborts the whole query. A row is modelled as its `properties` map, so this failure cannot arise.
- The `print(e, row)` in the exception handler is not modelled, because it is only logging (notion_sync.py:85).
- The datatypes rule out malformed JSON inside a property value. Examples are a value without `type`, a fragment without `plain_text`, or a unique id without `number`. Such failures would raise and drop the property, like the modelled failures. Because of this, the partial assignment `temp_data = prop_val['unique_id']` before a failing `['number']` (notion_sync.py:76-80) cannot arise.
- Numbers are carried as `real` and never computed with, so floating-point representation is not modelled. Unique-id numbers are non-negative integers.
- Filter and sort contents are type parameters, passed through unchanged.
- app.py is not part of this model. It holds the dashboard UI, charts, pandas aggregation and the JSON cache. Its `update_existing_data` does not work as written, so no upsert is modelled. The same goes for `get_diff` and the watermark pick.
- test1.py is not part of this model. It only prints environment variables.

=== FILE: decoder.dfy ===
/** `NotionSyncDB.process_db_data` (notion_sync.py:55-86): a fold over the schema's
    property names that decodes each property of one row into a flat record.

    The loop variable `temp_data` lives across passes of the loop. A pass that ends in
    an exception leaves it as it was, and a `formula` of a subtype other than number,
    string or date reaches the store without assigning it, so it stores whatever an
    earlier pass left there, or raises a `NameError` (and stores nothing) when no
    earlier pass assigned it. The fold therefore carries `temp_data` as an `Option`. */
module Decoder {
  import opened Wrappers
  import opened Properties
  import opened Records

  /** The loop's state between passes: `temp_data` (None while unbound) and `res_data`. */
  datatype State = State(temp: Option<Scalar>, out: Record)

  /** One pass of the `try` body for property `prop`: a missing key or an exception
      leaves the state as it was; otherwise `temp_data` is stored under `prop`. */
  function Visit(s: State, row: Row, prop: string): (r: State)
    ensures prop !in row ==> r == s
    ensures forall k :: k != prop ==> Lookup(r.out, k) == Lookup(s.out, k)
    ensures Lookup(r.out, prop) == Lookup(s.out, prop) || Lookup(r.out, prop) == r.temp
    ensures s.temp.Some? ==> r.temp.Some?
    ensures forall k :: k in Names(r.out) ==> k in Names(s.out) || k == prop
    ensures prop in row && Classify(row[prop]).Assign? ==>
              r.temp == Some(Classify(row[prop]).value) && Lookup(r.out, prop) == r.temp
    ensures prop in row && Classify(row[prop]).Raise? ==> r == s
    ensures prop in row && Classify(row[prop]).Stale? ==>
              r.temp == s.temp && (s.temp.Some? ==> Lookup(r.out, prop) == s.temp) && (s.temp.None? ==> r == s)
  {
    if prop !in row then s
    else
      match Classify(row[prop])
      case Assign(v) => State(Some(v), Put(s.out, prop, v))
      case Raise => s
      case Stale => if s.temp.Some? then State(s.temp, Put(s.out, prop, s.temp.value)) else s
  }

  /** The state after the first `n` passes of the loop; every key stored so far is one
      of the first `n` schema names. */
  function Run(schema: seq<string>, row: Row, n: nat): (s: State)
    requires n <= |schema|
    ensures forall k :: k in Names(s.out) ==> k in schema[..n]
  {
    if n == 0 then State(None, [])
    else
      var prev := Run(schema, row, n - 1);
      assert schema[..n] == schema[..n - 1] + [schema[n - 1]];
      Visit(prev, row, schema[n - 1])
  }

  /** The record `process_db_data` returns for `row`; it never holds a key outside the
      schema, whatever else the row holds. */
  function Decode(schema: seq<string>, row: Row): (r: Record)
    ensures forall k :: k in Names(r) ==> k in schema
  {
    assert schema[..|schema|] == schema;
    Run(schema, row, |schema|).out
  }

  // ---------------------------------------------------------------------------
  // Reference definition: what each schema position contributes, stated per index.

  /** The value the pass for `schema[j]` assigns to `temp_data`, if it assigns one. */
  function AssignedAt(schema: seq<string>, row: Row, j: nat): Option<Scalar>
    requires j < |schema|
  {
    var p := schema[j];
    if p in row && Classify(row[p]).Assign? then Some(Classify(row[p]).value) else None
  }

  /** `temp_data` as pass `i` starts: the value of the latest earlier pass that assigned. */
  function TempBefore(schema: seq<string>, row: Row, i: nat): Option<Scalar>
    requires i <= |schema|
  {
    if i == 0 then None
    else if AssignedAt(schema, row, i - 1).Some? then AssignedAt(schema, row, i - 1)
    else TempBefore(schema, row, i - 1)
  }

  /** The value stored for `schema[i]`, or None when its pass stores nothing. */
  function Entry(schema: seq<string>, row: Row, i: nat): Option<Scalar>
    requires i < |schema|
  {
    var p := schema[i];
    if p !in row then None
    else
      match Classify(row[p])
      case Assign(v) => Some(v)
      case Raise => None
      case Stale => TempBefore(schema, row, i)
  }

  /** The fields of the first `n` schema positions that store something, in schema order. */
  function Expected(schema: seq<string>, row: Row, n: nat): Record
    requires n <= |schema|
  {
    if n == 0 then []
    else
      var e := Entry(schema, row, n - 1);
      Expected(schema, row, n - 1) + (if e.Some? then [Field(schema[n - 1], e.value)] else [])
  }

  /** With distinct schema names (they are the keys of a dict), the fold agrees with the
      reference definition after every pass. */
  lemma {:induction false} RunMatchesExpected(schema: seq<string>, row: Row, n: nat)
    requires Distinct(schema)
    requires n <= |schema|
    ensures Run(schema, row, n) == State(TempBefore(schema, row, n), Expected(schema, row, n))
  {
    if n > 0 {
      RunMatchesExpected(schema, row, n - 1);
      var prev := Run(schema, row, n - 1);
      var p := schema[n - 1];
      assert p !in schema[..n - 1];
      assert p !in Names(prev.out);
    }
  }

  /** The decoded record is the reference definition over the whole schema. */
  lemma DecodeMatchesExpected(schema: seq<string>, row: Row)
    requires Distinct(schema)
    ensures Decode(schema, row) == Expected(schema, row, |schema|)
  {
    RunMatchesExpected(schema, row, |schema|);
  }

  lemma {:induction false} ExpectedLookup(schema: seq<string>, row: Row, n: nat)
    requires Distinct(schema)
    requires n <= |schema|
    ensures forall i :: 0 <= i < n ==> Lookup(Expected(schema, row, n), schema[i]) == Entry(schema, row, i)
    ensures forall k :: k !in schema[..n] ==> Lookup(Expected(schema, row, n), k).None?
  {
    if n > 0 {
      ExpectedLookup(schema, row, n - 1);
      var prev := Expected(schema, row, n - 1);
      var e := Entry(schema, row, n - 1);
      assert schema[..n] == schema[..n - 1] + [schema[n - 1]];
      if e.Some? {
        var f := Field(schema[n - 1], e.value);
        assert Expected(schema, row, n) == prev + [f];
        forall k ensures Lookup(prev + [f], k) ==
            (if k in Names(prev) then Lookup(prev, k) else if f.name == k then Some(f.value) else None) {
          LookupAppend(prev, f, k);
        }
        forall i | 0 <= i < n
          ensures Lookup(prev + [f], schema[i]) == Entry(schema, row, i)
        {
          LookupAppend(prev, f, schema[i]);
          if i == n - 1 {
            assert schema[n - 1] !in schema[..n - 1];
          } else {
            assert schema[i] != schema[n - 1];
          }
        }
      } else {
        assert Expected(schema, row, n) == prev;
        assert schema[n - 1] !in schema[..n - 1];
      }
    }
  }

  /** Each schema property is decoded on its own: the record holds, under `schema[i]`,
      exactly what pass `i` stores. */
  lemma DecodeLookup(schema: seq<string>, row: Row, i: nat)
    requires Distinct(schema)
    requires i < |schema|
    ensures Lookup(Decode(schema, row), schema[i]) == Entry(schema, row, i)
  {
    DecodeMatchesExpected(schema, row);
    ExpectedLookup(schema, row, |schema|);
  }

  // ---------------------------------------------------------------------------
  // What each kind of property decodes to.

  /** `number`, `created_time` and `last_edited_time` are stored with their payload
      unchanged (a null number stays null). */
  lemma DecodePassThrough(schema: seq<string>, row: Row, i: nat)
    requires Distinct(schema)
    requires i < |schema| && schema[i] in row
    ensures row[schema[i]].Number? ==>
              Lookup(Decode(schema, row), schema[i]) == Some(row[schema[i]].number)
    ensures row[schema[i]].CreatedTime? ==>
              Lookup(Decode(schema, row), schema[i]) == Some(Str(row[schema[i]].createdTime))
    ensures row[schema[i]].LastEditedTime? ==>
              Lookup(Decode(schema, row), schema[i]) == Some(Str(row[schema[i]].lastEditedTime))
  {
    DecodeLookup(schema, row, i);
  }

  /** `rich_text` and `title` are stored as their fragments' plain texts joined with single
      spaces: no fragments give the empty string, and when every fragment is space-free
      and there is at least one, splitting the stored text on spaces gives them back. */
  lemma DecodeText(schema: seq<string>, row: Row, i: nat, fragments: seq<Fragment>)
    requires Distinct(schema)
    requires i < |schema| && schema[i] in row
    requires row[schema[i]] == RichText(fragments) || row[schema[i]] == Title(fragments)
    ensures Lookup(Decode(schema, row), schema[i]) == Some(Str(Text.Join(PlainTexts(fragments))))
    ensures fragments == [] ==> Lookup(Decode(schema, row), schema[i]) == Some(Str(""))
    ensures |fragments| > 0 && (forall j :: 0 <= j < |fragments| ==> ' ' !in fragments[j].plainText) ==>
              Text.Split(Lookup(Decode(schema, row), schema[i]).value.s) == PlainTexts(fragments)
  {
    DecodeLookup(schema, row, i);
    var texts := PlainTexts(fragments);
    if |fragments| > 0 && (forall j :: 0 <= j < |fragments| ==> ' ' !in fragments[j].plainText) {
      Text.SplitJoin(texts);
    }
  }

  /** `select` is stored as the option's name; a null select raises and stores nothing. */
  lemma DecodeSelect(schema: seq<string>, row: Row, i: nat, option: Option<string>)
    requires Distinct(schema)
    requires i < |schema| && schema[i] in row && row[schema[i]] == Select(option)
    ensures option.Some? ==> Lookup(Decode(schema, row), schema[i]) == Some(Str(option.value))
    ensures option.None? ==> Lookup(Decode(schema, row), schema[i]).None?
  {
    DecodeLookup(schema, row, i);
  }

  /** A `formula` of subtype number or string is stored as the formula's value, one of
      subtype date as the date's `start`; a null date raises and stores nothing. */
  lemma DecodeFormula(schema: seq<string>, row: Row, i: nat, f: FormulaValue)
    requires Distinct(schema)
    requires i < |schema| && schema[i] in row && row[schema[i]] == Formula(f)
    ensures f.FNumber? ==> Lookup(Decode(schema, row), schema[i]) == Some(f.number)
    ensures f.FString? ==> Lookup(Decode(schema, row), schema[i]) == Some(f.str)
    ensures f.FDate? && f.start.Some? ==> Lookup(Decode(schema, row), schema[i]) == Some(Str(f.start.value))
    ensures f.FDate? && f.start.None? ==> Lookup(Decode(schema, row), schema[i]).None?
  {
    DecodeLookup(schema, row, i);
  }

  /** `temp_data` as pass `i` starts is unbound exactly when no earlier pass assigned it,
      and otherwise holds what the latest assigning pass assigned. */
  lemma {:induction false} TempBeforeIsLatest(schema: seq<string>, row: Row, i: nat)
    requires i <= |schema|
    ensures TempBefore(schema, row, i).None? <==> forall j :: 0 <= j < i ==> AssignedAt(schema, row, j).None?
    ensures TempBefore(schema, row, i).Some? ==>
              exists j :: 0 <= j < i && AssignedAt(schema, row, j) == TempBefore(schema, row, i)
                          && forall l :: j < l < i ==> AssignedAt(schema, row, l).None?
  {
    if i > 0 {
      TempBeforeIsLatest(schema, row, i - 1);
      if AssignedAt(schema, row, i - 1).None? && TempBefore(schema, row, i).Some? {
        var j :| 0 <= j < i - 1 && AssignedAt(schema, row, j) == TempBefore(schema, row, i - 1)
                 && forall l :: j < l < i - 1 ==> AssignedAt(schema, row, l).None?;
        assert forall l :: j < l < i ==> AssignedAt(schema, row, l).None?;
      }
    }
  }

  /** A `formula` of any other subtype assigns nothing, so it is stored with the value
      of the latest earlier property that assigned `temp_data`, and left out when there
      is none (the `NameError` is caught like any other exception). */
  lemma DecodeStaleFormula(schema: seq<string>, row: Row, i: nat, kind: string)
    requires Distinct(schema)
    requires i < |schema| && schema[i] in row && row[schema[i]] == Formula(FOther(kind))
    ensures Lookup(Decode(schema, row), schema[i]).None? <==>
              forall j :: 0 <= j < i ==> AssignedAt(schema, row, j).None?
    ensures Lookup(Decode(schema, row), schema[i]).Some? ==>
              exists j :: 0 <= j < i && AssignedAt(schema, row, j) == Lookup(Decode(schema, row), schema[i])
                          && forall l :: j < l < i ==> AssignedAt(schema, row, l).None?
  {
    DecodeLookup(schema, row, i);
    TempBeforeIsLatest(schema, row, i);
  }

  /** `unique_id` is stored as the bare number when the `prefix` key is absent, and as
      `"<prefix>-<number>"` when it is present (null printing as `None`); that label
      determines the prefix and the number. */
  lemma DecodeUniqueId(schema: seq<string>, row: Row, i: nat, prefix: Prefix, number: nat)
    requires Distinct(schema)
    requires i < |schema| && schema[i] in row && row[schema[i]] == UniqueId(prefix, number)
    ensures prefix.NoPrefix? ==> Lookup(Decode(schema, row), schema[i]) == Some(Num(number as real))
    ensures !prefix.NoPrefix? ==>
              Lookup(Decode(schema, row), schema[i]) == Some(Str(PrefixText(prefix) + "-" + Text.NatToString(number)))
    ensures !prefix.NoPrefix? ==>
              Lookup(Decode(schema, row), schema[i]).Some? && Lookup(Decode(schema, row), schema[i]).value.Str? &&
              Text.ParseId(Lookup(Decode(schema, row), schema[i]).value.s) == Some((PrefixText(prefix), number))
  {
    DecodeLookup(schema, row, i);
    assert Lookup(Decode(schema, row), schema[i]) == Some(UniqueIdValue(prefix, number));
    if !prefix.NoPrefix? {
      var idText := Text.FormatId(PrefixText(prefix), number);
      assert UniqueIdValue(prefix, number) == Str(idText);
      Text.ParseFormatId(PrefixText(prefix), number);
    }
  }

  /** A schema property missing from the row, or of a type the decoder does not know, is
      left out of the record; so is every name outside the schema. */
  lemma DecodeDropsFailures(schema: seq<string>, row: Row, k: string)
    requires Distinct(schema)
    ensures k !in row ==> Lookup(Decode(schema, row), k).None?
    ensures k in row && row[k].Unknown? ==> Lookup(Decode(schema, row), k).None?
    ensures k !in schema ==> Lookup(Decode(schema, row), k).None?
  {
    if k in schema {
      var i :| 0 <= i < |schema| && schema[i] == k;
      DecodeLookup(schema, row, i);
    }
  }

  // ---------------------------------------------------------------------------
  // Whole-record properties.

  lemma {:induction false} RunReadsOnlySchema(schema: seq<string>, row1: Row, row2: Row, n: nat)
    requires n <= |schema|
    requires forall k :: k in schema ==> (k in row1 <==> k in row2)
    requires forall k :: k in schema && k in row1 ==> row1[k] == row2[k]
    ensures Run(schema, row1, n) == Run(schema, row2, n)
  {
    if n > 0 {
      RunReadsOnlySchema(schema, row1, row2, n - 1);
      assert schema[n - 1] in schema;
    }
  }

  /** Properties of the row outside the schema have no effect on the record. */
  lemma DecodeReadsOnlySchema(schema: seq<string>, row1: Row, row2: Row)
    requires forall k :: k in schema ==> (k in row1 <==> k in row2)
    requires forall k :: k in schema && k in row1 ==> row1[k] == row2[k]
    ensures Decode(schema, row1) == Decode(schema, row2)
  {
    RunReadsOnlySchema(schema, row1, row2, |schema|);
  }

  lemma {:induction false} RunRaiseAsAbsent(schema: seq<string>, row: Row, p: string, n: nat)
    requires n <= |schema|
    requires p in row && Classify(row[p]).Raise?
    ensures Run(schema, row, n) == Run(schema, row - {p}, n)
  {
    if n > 0 {
      RunRaiseAsAbsent(schema, row, p, n - 1);
      var prev := Run(schema, row, n - 1);
      var q := schema[n - 1];
      if q == p {
        assert Visit(prev, row, q) == prev;
        assert Visit(prev, row - {p}, q) == prev;
      } else {
        assert q in row <==> q in row - {p};
        assert q in row ==> row[q] == (row - {p})[q];
      }
    }
  }

  /** A property whose pass raises leaves the rest of the record exactly as if that
      property were absent from the row: the exception stops nothing but its own pass. */
  lemma DecodeRaiseAsAbsent(schema: seq<string>, row: Row, p: string)
    requires p in row && Classify(row[p]).Raise?
    ensures Decode(schema, row) == Decode(schema, row - {p})
  {
    RunRaiseAsAbsent(schema, row, p, |schema|);
  }

  /** `a` is `b` with some elements left out, the rest in the same order. */
  predicate IsSubsequence<T(==)>(a: seq<T>, b: seq<T>)
    decreases |b|
  {
    if |a| == 0 then true
    else if |b| == 0 then false
    else (a[|a| - 1] == b[|b| - 1] && IsSubsequence(a[..|a| - 1], b[..|b| - 1]))
         || IsSubsequence(a, b[..|b| - 1])
  }

  lemma {:induction false} ExpectedInSchemaOrder(schema: seq<string>, row: Row, n: nat)
    requires n <= |schema|
    ensures IsSubsequence(Names(Expected(schema, row, n)), schema[..n])
  {
    if n > 0 {
      ExpectedInSchemaOrder(schema, row, n - 1);
      var prev := Expected(schema, row, n - 1);
      var e := Entry(schema, row, n - 1);
      assert schema[..n][..n - 1] == schema[..n - 1];
      if e.Some? {
        var cur := prev + [Field(schema[n - 1], e.value)];
        assert Names(cur)[..|cur| - 1] == Names(prev);
      } else {
        assert Expected(schema, row, n) == prev;
        SubsequenceOfLonger(Names(prev), schema[..n - 1], schema[n - 1]);
        assert schema[..n - 1] + [schema[n - 1]] == schema[..n];
      }
    }
  }

  lemma SubsequenceOfLonger<T>(a: seq<T>, b: seq<T>, x: T)
    requires IsSubsequence(a, b)
    ensures IsSubsequence(a, b + [x])
  {
  }

  /** The record's keys are distinct and follow schema order: they are the schema with
      the failed properties left out. */
  lemma DecodeInSchemaOrder(schema: seq<string>, row: Row)
    requires Distinct(schema)
    ensures IsSubsequence(Names(Decode(schema, row)), schema)
    ensures Distinct(Names(Decode(schema, row)))
  {
    DecodeMatchesExpected(schema, row);
    ExpectedInSchemaOrder(schema, row, |schema|);
    assert schema[..|schema|] == schema;
    RunKeepsDistinct(schema, row, |schema|);
  }

  /** A schema name is a key of the record exactly when its pass stores something. */
  lemma DecodeKeys(schema: seq<string>, row: Row)
    requires Distinct(schema)
    ensures forall i :: 0 <= i < |schema| ==>
              (schema[i] in Names(Decode(schema, row)) <==> Entry(schema, row, i).Some?)
  {
    forall i | 0 <= i < |schema|
      ensures schema[i] in Names(Decode(schema, row)) <==> Entry(schema, row, i).Some?
    {
      DecodeLookup(schema, row, i);
    }
  }

  lemma {:induction false} RunKeepsDistinct(schema: seq<string>, row: Row, n: nat)
    requires n <= |schema|
    ensures Distinct(Names(Run(schema, row, n).out))
  {
    if n > 0 {
      RunKeepsDistinct(schema, row, n - 1);
      var prev := Run(schema, row, n - 1);
      var p := schema[n - 1];
      if p in row {
        match Classify(row[p])
        case Assign(v) => PutKeepsDistinct(prev.out, p, v);
        case Raise =>
        case Stale =>
          if prev.temp.Some? {
            PutKeepsDistinct(prev.out, p, prev.temp.value);
          }
      }
    }
  }
}

=== FILE: properties.dfy ===
/** Notion property values as they appear in a database row, and the per-property
    rule `NotionSyncDB.process_db_data` applies to each one (notion_sync.py:62-82). */
module Properties {
  import opened Wrappers
  import Text

  /** A value as it lands in the flattened record: JSON null, a number or a string. */
  datatype Scalar = Null | Num(x: real) | Str(s: string)

  /** One rich-text fragment; the decoder reads only its `plain_text`. */
  datatype Fragment = Fragment(plainText: string)

  /** The `prefix` key of a unique id: absent, present but JSON null, or text. */
  datatype Prefix = NoPrefix | NullPrefix | Prefix(text: string)

  /** The payload of a `formula` property, by its `type` subtag. A null date payload
      is `FDate(None)`; every other subtype (`boolean`, ...) is `FOther`, whose `kind` is
      never `number`, `string` or `date`. */
  datatype FormulaValue =
    | FNumber(number: Scalar)
    | FString(str: Scalar)
    | FDate(start: Option<string>)
    | FOther(kind: string)

  /** A property value, by its `type` tag. `Unknown` stands for every tag the decoder
      has no branch for (`date`, `checkbox`, `multi_select`, ...); its `tag` is never one
      of the tags that have their own constructor here. */
  datatype PropVal =
    | Number(number: Scalar)
    | CreatedTime(createdTime: string)
    | LastEditedTime(lastEditedTime: string)
    | RichText(richText: seq<Fragment>)
    | Title(title: seq<Fragment>)
    | Select(option: Option<string>)
    | Formula(formula: FormulaValue)
    | UniqueId(prefix: Prefix, idNumber: nat)
    | Unknown(tag: string)

  /** The `properties` object of one result page: property name to value. */
  type Row = map<string, PropVal>

  /** What one pass of the loop body does with a property that is present in the row:
      assign `temp_data` and store it, raise (and so store nothing), or reach the
      store without having assigned `temp_data` in this pass. */
  datatype Step = Assign(value: Scalar) | Raise | Stale

  function PlainTexts(fragments: seq<Fragment>): (texts: seq<string>)
    ensures |texts| == |fragments|
    ensures forall i :: 0 <= i < |fragments| ==> texts[i] == fragments[i].plainText
  {
    seq(|fragments|, i requires 0 <= i < |fragments| => fragments[i].plainText)
  }

  /** The text an f-string prints for a present prefix; Python prints null as `None`. */
  function PrefixText(p: Prefix): string
    requires !p.NoPrefix?
  {
    match p
    case NullPrefix => "None"
    case Prefix(t) => t
  }

  /** `"<prefix>-<number>"` when the `prefix` key is present, the bare number otherwise. */
  function UniqueIdValue(p: Prefix, number: nat): Scalar {
    if p.NoPrefix? then Num(number as real) else Str(Text.FormatId(PrefixText(p), number))
  }

  /** The if/elif chain of notion_sync.py:63-82 for one property value. */
  function Classify(p: PropVal): (r: Step)
    ensures r.Raise? <==> p.Unknown? || (p.Select? && p.option.None?)
                          || (p.Formula? && p.formula.FDate? && p.formula.start.None?)
    ensures r.Stale? <==> p.Formula? && p.formula.FOther?
  {
    match p
    case Number(x) => Assign(x)
    case CreatedTime(t) => Assign(Str(t))
    case LastEditedTime(t) => Assign(Str(t))
    case RichText(fs) => Assign(Str(Text.Join(PlainTexts(fs))))
    case Title(fs) => Assign(Str(Text.Join(PlainTexts(fs))))
    case Select(o) => if o.Some? then Assign(Str(o.value)) else Raise
    case Formula(f) =>
      (match f
       case FNumber(x) => Assign(x)
       case FString(x) => Assign(x)
       case FDate(d) => if d.Some? then Assign(Str(d.value)) else Raise
       case FOther(_) => Stale)
    case UniqueId(pre, n) => Assign(UniqueIdValue(pre, n))
    case Unknown(_) => Raise
  }
}

=== FILE: query.dfy ===
/** The result-accumulating cursor loop of `NotionSyncDB.query_database`
    (notion_sync.py:27-53). The HTTP exchange is replaced by the sequence of response
    pages the server would return, in order: `pages[0]` answers the first request,
    `pages[i]` the `i`-th follow-up. */
module Query {
  import opened Wrappers
  import opened Properties
  import opened Records
  import Decoder

  /** A page's `next_cursor`: JSON null or a cursor string. */
  datatype Cursor = NullCursor | Cursor(id: string)

  /** One response body: the rows of `results`, `has_more` and `next_cursor`. */
  datatype Page = Page(results: seq<Row>, hasMore: bool, nextCursor: Cursor)

  /** The JSON body of one query request: `sorts`, the optional `filter` and the optional
      `start_cursor`. Filters and sort specifications are passed through untouched. */
  datatype Request<F, S> = Request(sorts: seq<S>, filter: Option<map<string, F>>, startCursor: Option<Cursor>)

  /** `[self.process_db_data(x) for x in rows]`. */
  function DecodeRows(schema: seq<string>, rows: seq<Row>): (records: seq<Record>)
    ensures |records| == |rows|
    ensures forall i :: 0 <= i < |rows| ==> records[i] == Decoder.Decode(schema, rows[i])
  {
    seq(|rows|, i requires 0 <= i < |rows| => Decoder.Decode(schema, rows[i]))
  }

  /** The decoded rows of `pages`, page after page. */
  function Gather(schema: seq<string>, pages: seq<Page>): seq<Record> {
    if |pages| == 0 then []
    else Gather(schema, pages[..|pages| - 1]) + DecodeRows(schema, pages[|pages| - 1].results)
  }

  /** The number of rows on `pages`. */
  function RowCount(pages: seq<Page>): nat {
    if |pages| == 0 then 0 else RowCount(pages[..|pages| - 1]) + |pages[|pages| - 1].results|
  }

  /** Some page says there is nothing more to fetch. */
  predicate Finished(pages: seq<Page>) {
    exists i :: 0 <= i < |pages| && !pages[i].hasMore
  }

  /** How many responses the loop reads: up to and including the first page whose
      `has_more` is false, or all of them when every page says there is more. */
  function Consumed(pages: seq<Page>): (c: nat)
    ensures c <= |pages|
    ensures forall j :: 0 <= j < c - 1 ==> pages[j].hasMore
    ensures c < |pages| ==> c > 0 && !pages[c - 1].hasMore
    ensures Finished(pages) <==> c > 0 && !pages[c - 1].hasMore
  {
    if |pages| == 0 then 0
    else if !pages[0].hasMore then 1
    else
      var c := 1 + Consumed(pages[1..]);
      assert forall j :: 1 <= j < |pages| ==> pages[1..][j - 1] == pages[j];
      c
  }

  /** The body of the first request: `filter` is sent only when the filter is non-empty
      (a Python dict is false exactly when it is empty). */
  function FirstRequest<F, S>(filter: map<string, F>, sorts: seq<S>): (r: Request<F, S>)
    ensures r.sorts == sorts && r.startCursor.None?
    ensures r.filter.Some? <==> |filter| > 0
    ensures r.filter.Some? ==> r.filter.value == filter
  {
    Request(sorts, if |filter| > 0 then Some(filter) else None, None)
  }

  /** The loop of notion_sync.py:44-53. It returns every request body it sends, the
      decoded rows, and whether a page with `has_more` false was reached; when the
      given pages run out first, the last request is the one left unanswered. */
  method QueryDatabase<F, S>(schema: seq<string>, filter: map<string, F>, sorts: seq<S>, pages: seq<Page>)
    returns (requests: seq<Request<F, S>>, data: seq<Record>, finished: bool)
    ensures finished <==> Finished(pages)
    ensures |requests| == (if finished then Consumed(pages) else |pages| + 1)
    ensures forall i :: 0 <= i < |requests| ==>
              requests[i].sorts == sorts && requests[i].filter == (if |filter| > 0 then Some(filter) else None)
    ensures |requests| > 0 && requests[0].startCursor.None?
    ensures forall i :: 1 <= i < |requests| ==>
              pages[i - 1].hasMore && requests[i].startCursor == Some(pages[i - 1].nextCursor)
    ensures data == Gather(schema, pages[..Consumed(pages)])
  {
    var params := FirstRequest(filter, sorts);
    requests := [params];
    if |pages| == 0 {
      return requests, [], false;
    }
    var page := pages[0];
    data := DecodeRows(schema, page.results);
    assert pages[..1] == [pages[0]];
    var i := 1;
    while page.hasMore
      invariant 1 <= i <= |pages|
      invariant page == pages[i - 1]
      invariant forall j :: 0 <= j < i - 1 ==> pages[j].hasMore
      invariant |requests| == i
      invariant params.sorts == sorts && params.filter == FirstRequest(filter, sorts).filter
      invariant forall j :: 0 <= j < i ==> requests[j].sorts == sorts && requests[j].filter == params.filter
      invariant requests[0].startCursor.None?
      invariant forall j :: 1 <= j < i ==> requests[j].startCursor == Some(pages[j - 1].nextCursor)
      invariant data == Gather(schema, pages[..i])
      decreases |pages| - i
    {
      params := params.(startCursor := Some(page.nextCursor));
      requests := requests + [params];
      if i == |pages| {
        assert pages[..Consumed(pages)] == pages[..i];
        return requests, data, false;
      }
      page := pages[i];
      data := data + DecodeRows(schema, page.results);
      i := i + 1;
      assert pages[..i][..i - 1] == pages[..i - 1];
    }
    finished := true;
  }

  /** The data is the in-order concatenation of each page's decoded results: row `j` of
      page `p` lands right after the rows of the pages before `p`. */
  lemma {:induction false} GatherLocate(schema: seq<string>, pages: seq<Page>, p: nat, j: nat)
    requires p < |pages| && j < |pages[p].results|
    ensures |Gather(schema, pages)| == RowCount(pages)
    ensures RowCount(pages[..p]) + j < |Gather(schema, pages)|
    ensures Gather(schema, pages)[RowCount(pages[..p]) + j] == Decoder.Decode(schema, pages[p].results[j])
  {
    var n := |pages|;
    var init := pages[..n - 1];
    GatherLength(schema, init);
    if p == n - 1 {
      assert pages[..p] == init;
    } else {
      GatherLocate(schema, init, p, j);
      assert init[..p] == pages[..p];
      assert init[p] == pages[p];
    }
  }

  lemma {:induction false} GatherLength(schema: seq<string>, pages: seq<Page>)
    ensures |Gather(schema, pages)| == RowCount(pages)
  {
    if |pages| > 0 {
      GatherLength(schema, pages[..|pages| - 1]);
    }
  }
}

=== FILE: records.dfy ===
/** The flattened record `process_db_data` returns: a Python dict from property name to
    scalar, which keeps its keys in insertion order. It is modelled as a list of fields
    with `d[k] = v` semantics. */
module Records {
  import opened Wrappers
  import opened Properties

  datatype Field = Field(name: string, value: Scalar)

  type Record = seq<Field>

  /** The keys of a record, in insertion order. */
  function Names(r: Record): (ns: seq<string>)
    ensures |ns| == |r|
    ensures forall i :: 0 <= i < |r| ==> ns[i] == r[i].name
  {
    seq(|r|, i requires 0 <= i < |r| => r[i].name)
  }

  predicate Distinct<T(==)>(s: seq<T>) {
    forall i, j :: 0 <= i < j < |s| ==> s[i] != s[j]
  }

  /** `r.get(k)`: the value stored under `k`, if any. */
  function Lookup(r: Record, k: string): (v: Option<Scalar>)
    ensures v.None? <==> k !in Names(r)
  {
    if |r| == 0 then None
    else if r[0].name == k then Some(r[0].value)
    else
      assert Names(r[1..]) == Names(r)[1..];
      Lookup(r[1..], k)
  }

  /** `r[k] = v`: an existing key keeps its position and takes the new value, a new key
      goes to the end; every other key keeps its value. */
  function Put(r: Record, k: string, v: Scalar): (r': Record)
    ensures Lookup(r', k) == Some(v)
    ensures forall j :: j != k ==> Lookup(r', j) == Lookup(r, j)
    ensures k in Names(r) ==> Names(r') == Names(r)
    ensures k !in Names(r) ==> r' == r + [Field(k, v)]
  {
    if |r| == 0 then [Field(k, v)]
    else if r[0].name == k then
      assert Names([Field(k, v)] + r[1..]) == Names(r);
      [Field(k, v)] + r[1..]
    else
      var tail := Put(r[1..], k, v);
      assert Names(r[1..]) == Names(r)[1..];
      assert Names([r[0]] + tail) == [r[0].name] + Names(tail);
      assert Names(r) == [r[0].name] + Names(r[1..]);
      [r[0]] + tail
  }

  /** Storing keeps the keys of a record distinct, as a dict's are. */
  lemma PutKeepsDistinct(r: Record, k: string, v: Scalar)
    requires Distinct(Names(r))
    ensures Distinct(Names(Put(r, k, v)))
  {
  }

  /** Reading from a record with one field appended. */
  lemma LookupAppend(r: Record, f: Field, k: string)
    ensures Lookup(r + [f], k) ==
            (if k in Names(r) then Lookup(r, k) else if f.name == k then Some(f.value) else None)
  {
    if |r| > 0 {
      assert (r + [f])[1..] == r[1..] + [f];
      assert Names(r[1..]) == Names(r)[1..];
      LookupAppend(r[1..], f, k);
    }
  }
}

=== FILE: text.dfy ===
/** String helpers the decoder relies on: Python's `" ".join(...)`, the decimal
    rendering an f-string gives a non-negative integer, and the `"<prefix>-<number>"`
    label of a unique id. Each comes with the inverse that shows it loses nothing. */
module Text {
  import opened Wrappers

  /** Sum of the lengths of `parts`. */
  function TotalLength(parts: seq<string>): nat {
    if |parts| == 0 then 0 else |parts[0]| + TotalLength(parts[1..])
  }

  /** Python's `" ".join(parts)`: the parts in order with one space between neighbours;
      the empty list joins to the empty string. */
  function Join(parts: seq<string>): (r: string)
    ensures |parts| > 0 ==> |r| == TotalLength(parts) + |parts| - 1
  {
    if |parts| == 0 then ""
    else if |parts| == 1 then parts[0]
    else parts[0] + " " + Join(parts[1..])
  }

  /** Number of occurrences of `c` in `s`. */
  function Count(s: string, c: char): nat {
    if |s| == 0 then 0 else (if s[0] == c then 1 else 0) + Count(s[1..], c)
  }

  /** Python's `s.split(" ")`: the pieces between single spaces, so a string with
      `k` spaces splits into `k + 1` pieces, none of which holds a space. */
  function Split(s: string): (r: seq<string>)
    ensures |r| == Count(s, ' ') + 1
    ensures forall i :: 0 <= i < |r| ==> ' ' !in r[i]
  {
    if |s| == 0 then [""]
    else
      var rest := Split(s[1..]);
      if s[0] == ' ' then [""] + rest
      else [[s[0]] + rest[0]] + rest[1..]
  }

  /** Joining the pieces of a split gives the string back. */
  lemma {:induction false} JoinSplit(s: string)
    ensures Join(Split(s)) == s
  {
    if |s| == 0 {
    } else {
      var rest := Split(s[1..]);
      JoinSplit(s[1..]);
      if s[0] == ' ' {
        assert Split(s) == [""] + rest;
        assert ([""] + rest)[1..] == rest;
        assert Join(Split(s)) == "" + " " + Join(rest);
        assert s == [s[0]] + s[1..];
      } else {
        var head := [s[0]] + rest[0];
        assert Split(s) == [head] + rest[1..];
        assert ([head] + rest[1..])[1..] == rest[1..];
        if |rest| == 1 {
          assert Join(rest) == rest[0];
        } else {
          assert Join(rest) == rest[0] + " " + Join(rest[1..]);
          assert Join(Split(s)) == head + " " + Join(rest[1..]);
        }
        assert s == [s[0]] + s[1..];
      }
    }
  }

  /** A piece without spaces splits to itself. */
  lemma {:induction false} SplitWord(a: string)
    requires ' ' !in a
    ensures Split(a) == [a]
  {
    if |a| > 0 {
      assert ' ' !in a[1..] by {
        forall i | 0 <= i < |a[1..]| ensures a[1..][i] != ' ' {
          assert a[1..][i] == a[i + 1];
        }
      }
      SplitWord(a[1..]);
      assert [a[0]] + a[1..] == a;
    }
  }

  /** Splitting `a + " " + b` cuts at the space that follows a space-free `a`. */
  lemma {:induction false} SplitAfterWord(a: string, b: string)
    requires ' ' !in a
    ensures Split(a + " " + b) == [a] + Split(b)
  {
    if |a| == 0 {
      assert a + " " + b == [' '] + b;
      assert (a + " " + b)[1..] == b;
    } else {
      var s := a + " " + b;
      assert s[1..] == a[1..] + " " + b;
      assert ' ' !in a[1..] by {
        forall i | 0 <= i < |a[1..]| ensures a[1..][i] != ' ' {
          assert a[1..][i] == a[i + 1];
        }
      }
      SplitAfterWord(a[1..], b);
      var rest := Split(s[1..]);
      assert rest == [a[1..]] + Split(b);
      assert [s[0]] + rest[0] == a;
      assert rest[1..] == Split(b);
    }
  }

  /** Splitting a join of space-free pieces recovers the pieces. The list must be
      non-empty: `[]` and `[""]` both join to `""`. */
  lemma {:induction false} SplitJoin(parts: seq<string>)
    requires |parts| > 0
    requires forall i :: 0 <= i < |parts| ==> ' ' !in parts[i]
    ensures Split(Join(parts)) == parts
  {
    if |parts| == 1 {
      SplitWord(parts[0]);
    } else {
      SplitJoin(parts[1..]);
      SplitAfterWord(parts[0], Join(parts[1..]));
      assert [parts[0]] + parts[1..] == parts;
    }
  }

  predicate IsDigit(c: char) {
    '0' <= c <= '9'
  }

  function DigitChar(d: nat): (c: char)
    requires d < 10
  {
    ('0' as int + d) as char
  }

  function DigitValue(c: char): nat
    requires IsDigit(c)
  {
    c as int - '0' as int
  }

  /** The decimal rendering Python gives a non-negative `int` (`str(n)`, or `{n}` in
      an f-string): at least one digit, and digits only. */
  function NatToString(n: nat): (r: string)
    ensures |r| > 0
    ensures forall i :: 0 <= i < |r| ==> IsDigit(r[i])
    ensures r[0] == '0' ==> n == 0 && r == "0"
  {
    if n < 10 then [DigitChar(n)] else NatToString(n / 10) + [DigitChar(n % 10)]
  }

  /** Reads a run of decimal digits back as a number. */
  function ParseNat(s: string): nat
    requires forall i :: 0 <= i < |s| ==> IsDigit(s[i])
  {
    if |s| == 0 then 0 else 10 * ParseNat(s[..|s| - 1]) + DigitValue(s[|s| - 1])
  }

  /** The decimal rendering reads back as the same number. */
  lemma {:induction false} ParseNatToString(n: nat)
    ensures ParseNat(NatToString(n)) == n
  {
    var s := NatToString(n);
    if n >= 10 {
      ParseNatToString(n / 10);
      assert s[..|s| - 1] == NatToString(n / 10);
    }
  }

  /** The f-string `f"{prefix}-{number}"` for a textual prefix. */
  function FormatId(prefix: string, number: nat): (r: string)
    ensures |r| > |prefix| + 1
    ensures r[..|prefix|] == prefix && r[|prefix|] == '-'
    ensures forall j :: |prefix| < j < |r| ==> IsDigit(r[j])
  {
    prefix + "-" + NatToString(number)
  }

  /** Index of the last occurrence of `c` in `s`, if any. */
  function LastIndexOf(s: string, c: char): (r: Option<nat>)
    ensures r.None? ==> c !in s
    ensures r.Some? ==> r.value < |s| && s[r.value] == c
                        && forall j :: r.value < j < |s| ==> s[j] != c
  {
    if |s| == 0 then None
    else if s[|s| - 1] == c then Some(|s| - 1)
    else
      var r := LastIndexOf(s[..|s| - 1], c);
      assert forall j :: 0 <= j < |s| - 1 ==> s[..|s| - 1][j] == s[j];
      r
  }

  /** Reads a unique-id label back: the prefix is everything before the last `-`, the
      number the digits after it. */
  function ParseId(s: string): Option<(string, nat)> {
    match LastIndexOf(s, '-')
    case None => None
    case Some(i) =>
      var tail := s[i + 1..];
      if |tail| > 0 && forall j :: 0 <= j < |tail| ==> IsDigit(tail[j])
      then Some((s[..i], ParseNat(tail)))
      else None
  }

  /** A unique-id label determines its prefix and number, whatever dashes the prefix
      itself holds, because the rendered number never contains a `-`. */
  lemma ParseFormatId(prefix: string, number: nat)
    ensures ParseId(FormatId(prefix, number)) == Some((prefix, number))
  {
    var digits := NatToString(number);
    var s := FormatId(prefix, number);
    assert s[|prefix|] == '-';
    forall j | |prefix| < j < |s| ensures s[j] != '-' {
      assert s[j] == digits[j - |prefix| - 1];
    }
    var r := LastIndexOf(s, '-');
    assert r == Some(|prefix|);
    assert s[..|prefix|] == prefix;
    assert s[|prefix| + 1..] == digits;
    ParseNatToString(number);
  }
}

=== FILE: wrappers.dfy ===
/** The optional-value type the rest of the model uses for JSON values that may be
    absent or null. */
module Wrappers {

  datatype Option<+T> = None | Some(value: T)
}
